=== FILE: README.md ===
# Privacy-preserving biometric authentication: a Dafny model of the verification core

The system enrolls users by storing an encrypted biometric template. It
verifies a user by decrypting the stored template and a fresh one and then
applying a tolerance-and-threshold matching rule. This project models the
logic of `Iteration-2.py` around that decision:

- `Preprocess` (`preprocess.dfy`): the five-reading input gate and the fixed
  0–100 min-max normalisation.
- `Matcher` (`matcher.dfy`): `compare_fingerprints`. It counts the positions
  that `zip` pairs whose readings differ by at most 0.05. It divides that
  count by the length of the stored template and compares the percentage
  with the threshold (default 95).
- `Store` (`store.dfy`): the `fingerprints` table as an immutable
  `map<string, seq<bv8>>`. Saving is an upsert of the compressed template.
  Loading decompresses the row, and gives `None` when the row is missing or
  fails to decompress.
- `Flow` (`flow.dfy`): the enrol ("1"), verify ("2"), exit ("3") and invalid
  branches of `user_interaction_flow`.
- `Wrappers` (`wrappers.dfy`): the `Option` type.

The model leaves the compression codec and the homomorphic encryption
library uninterpreted. Each is a datatype holding a pair of function values
(`Store.Codec`, `Flow.Crypto`). The codec's round-trip promise,
decompress(compress(b)) = b, is the predicate `Store.RoundTrips`. Lemmas
that depend on it take it as a hypothesis. Python floats are modelled as
exact `real`s, so the model states the intended real-valued rule.

The code makes these choices, and the model keeps them:

- `compare_fingerprints` has no length-mismatch error. `zip` truncates to
  the shorter side, and the denominator is always `len(stored)`. So cutting
  readings off the current sample only loses positions and never turns a
  rejection into an acceptance (`Matcher.TruncationGainsNothing`,
  `Matcher.ShortCurrentBound`).
- The normaliser does no length check. The five-reading gate is applied
  when the sample is read.
- A stored row that fails to decompress is not reported as a separate
  error. Like a missing row or an empty blob, it takes the "No user ID
  found" branch (`Store.CorruptLikeAbsent`, `Flow.CorruptRecordNotFound`).
- A context loaded without a secret key is only logged, never rejected. The
  key file is regenerated and overwritten on every start (Iteration-2.py:97-101),
  and each run performs one action (Iteration-2.py:213-229). So a
  verification always runs under a different key from the enrolment it
  checks. The model therefore gives every run its own `Crypto`.
  `Flow.KeyChangeDenies` shows that a change of key can deny a genuine sample.

## Model

| member | source | states |
|---|---|---|
| Preprocess.Normalize | Iteration-2.py:127-133 | The output has the input's length and each element times 100 is the original reading. A reading lies in [0, 100] exactly when its image lies in [0, 1]. The order between any two readings is preserved. Any length is accepted. |
| Preprocess.DenormalizeNormalize | Iteration-2.py:129-131 | Scaling back recovers the original sample exactly, so normalisation loses no information. |
| Preprocess.NormalizeDenormalize | Iteration-2.py:129-131 | Every vector is the normalisation of some sample: the scaling is a bijection. |
| Preprocess.IsValidSample | Iteration-2.py:169-172 | The input gate: a parsed sample is accepted only when it has exactly five readings. Any other length is asked for again. |
| Preprocess.NormalizePreservesShape | Iteration-2.py:169-172 | A sample passes the five-reading gate exactly when its normalised vector has five elements. |
| Matcher.CountUpTo | Iteration-2.py:159 | The running count of agreeing pairs never exceeds the number of pairs examined. |
| Matcher.CountUpToIsCardinality | Iteration-2.py:159 | The running count equals the number of positions below k whose readings are within 0.05. |
| Matcher.MatchCount | Iteration-2.py:159 | `matched` is the size of the set of positions paired by zip whose readings agree within 0.05. It is at most both lengths. |
| Matcher.Similarity | Iteration-2.py:160-161 | The similarity lies in [0, 100]. It equals the agreeing positions as a percentage of the stored length. |
| Matcher.CompareFingerprints | Iteration-2.py:155-162 | Any threshold rejects when either side is empty. Otherwise the result is accept exactly when 100 × matched ≥ threshold × len(stored). |
| Matcher.ThresholdMonotone | Iteration-2.py:161-162 | Raising the threshold never turns a rejection into an acceptance. |
| Matcher.CountUpToPrefix | Iteration-2.py:159 | The count over the first k pairs depends only on the first k current readings. |
| Matcher.ExtraCurrentIgnored | Iteration-2.py:159-162 | Current readings beyond the stored length never change the decision. |
| Matcher.ShortCurrentBound | Iteration-2.py:159-162 | An accepted current sample shorter than the stored one needs threshold × len(stored) ≤ 100 × len(current): the missing positions count as disagreements. |
| Matcher.CountUpToMonotone | Iteration-2.py:159 | Counting agreements over more pairs never gives fewer. |
| Matcher.TruncationGainsNothing | Iteration-2.py:159-162 | If any prefix of the current sample is accepted, the whole current sample is accepted too, at the same threshold. Truncation gains nothing. |
| Matcher.CountUpToSelf | Iteration-2.py:159 | A sequence compared with itself agrees at every position. |
| Matcher.IdenticalAccepted | Iteration-2.py:155-162 | Two identical non-empty templates are accepted at every threshold up to 100. |
| Matcher.FullCountIffAllClose | Iteration-2.py:159 | The count over k pairs is k exactly when each of those pairs agrees within 0.05. |
| Matcher.OneMismatchCount | Iteration-2.py:159 | If exactly one of k pairs disagrees, the count is k − 1. |
| Matcher.FiveReadingsDefault | Iteration-2.py:155-162 | For two five-reading templates at threshold 95, the result is accept exactly when all five readings agree within 0.05. |
| Matcher.SingleOutlierRejected | Iteration-2.py:155-162 | If exactly one of five readings is off by more than 0.05, the similarity is 80% and threshold 95 rejects. |
| Matcher.ToleranceBoundaryExample | Iteration-2.py:155-162 | At threshold 95, a single reading off by 0.06 rejects and a single reading off by 0.04 accepts. |
| Store.Save | Iteration-2.py:30-42 | After saving, the table's keys are the old keys plus the user. The user's row holds the compressed template. Every other row is unchanged. |
| Store.Load | Iteration-2.py:45-62 | The result is `None` exactly when the row is missing or decompression fails. Otherwise it is the decompressed row. |
| Store.LoadAfterSave | Iteration-2.py:38-55 | Given a round-tripping codec, loading a user right after saving them returns the saved template. |
| Store.SaveLeavesOthers | Iteration-2.py:39-40 | Saving one user does not change what any other user loads. |
| Store.SaveTwiceKeepsLast | Iteration-2.py:39-40 | Saving the same user twice gives the same table as saving only the second template. |
| Store.CorruptLikeAbsent | Iteration-2.py:52-62 | A row that fails to decompress loads exactly like a missing row. Both give `None`. |
| Flow.Enroll | Iteration-2.py:179-185 | A sample without exactly five readings is rejected and leaves the store unchanged. Otherwise exactly one record is written, keyed by the entered id and holding the compressed encrypted normalised sample. Every other record is kept. |
| Flow.Verify | Iteration-2.py:187-204 | The outcome is "no user found" exactly when the loaded value is `None` or empty. The sample is rejected exactly when the load succeeded and the sample fails the gate. Decryption failure is reported exactly when the load succeeded, the sample passed and either decryption raised. Otherwise the outcome is approve or deny. Approval is exactly the matcher's verdict at threshold 95 on the decrypted stored and current vectors. |
| Flow.Truthy | Iteration-2.py:191 | Python truthiness of the loaded value: `None` and empty bytes are false, and any other blob is true. |
| Flow.Template | Iteration-2.py:182-183 | The template of a sample is the encryption of its normalisation. The same composition is used for the fresh sample at Iteration-2.py:194-195. |
| Flow.Interact | Iteration-2.py:174-209 | Action "1" is exactly an enrolment, and only it can change the store. Action "2" yields the verify outcome, "3" exits, and any other input is an invalid response. |
| Flow.WrongLengthDecidesNothing | Iteration-2.py:169-172 | A sample of the wrong length leaves the store unchanged under every action and never gives an approval, denial or enrolment. |
| Flow.UnenrolledNotFound | Iteration-2.py:189-204 | Verifying a user with no record reports "no user found", whatever the sample. |
| Flow.CorruptRecordNotFound | Iteration-2.py:189-204 | A record that fails to decompress gives "no user found", the same outcome as deleting the record. |
| Flow.EnrollThenLoad | Iteration-2.py:180-184 | Given a round-tripping codec, after enrolment the entered id loads the encrypted normalised sample. |
| Flow.EnrollThenVerifySameSample | Iteration-2.py:179-202 | Suppose a sample is enrolled in one run and verified in a later run whose context decrypts the earlier run's templates as its own. Then the same sample is approved, if the template is non-empty and decrypts to a non-empty vector. |
| Flow.KeyChangeDenies | Iteration-2.py:97-101 | There is a round-tripping codec and a key change under which enrolling a five-reading sample and then verifying the same sample is denied. |
| Flow.EnrollThenVerifyApproximate | Iteration-2.py:179-202 | Suppose the verifying run decrypts both the stored template and its own fresh template to vectors of the right length within 0.025 of the normalised sample at every position. Then enrolling and verifying the same sample is approved. Decryption need only be approximate, and the two decrypted vectors need not be equal. Decrypting the stored template assumes key continuity between runs, which the program never has. |
| Flow.ReenrollLastWins | Iteration-2.py:179-184 | Enrolling a user twice, in any runs, with a five-reading second sample leaves the same store as enrolling once with the second sample. So every later verification agrees. The source re-prompts until the sample has five readings, so the second sample always has them. |
| Flow.EnrollLeavesOthers | Iteration-2.py:179-184 | Enrolling one user never changes how another user is verified. |

## Left out

- TenSEAL/CKKS context creation, Galois keys, `global_scale`, `ckks_vector`, serialisation, `lazy_ckks_vector_from`, `link_context` and `decrypt` (Iteration-2.py:98-100, 113-115, 135-153) are foreign library calls with approximate semantics. They appear only as the uninterpreted functions of `Flow.Crypto`.
- Rounding to two places in `decrypt_data` (Iteration-2.py:150) is part of the uninterpreted `decrypt`.
- The library encrypts with fresh randomness on every call. `Crypto.encrypt` is a function, so the model is deterministic here. The matcher only sees decrypted values, which the model does not relate to the inputs beyond the hypotheses a lemma states.
- The zlib internals, the sqlite connection and cursor plumbing, and `initialize_database` (Iteration-2.py:19-28) are I/O. Only the map and the round-trip predicate remain.
- The `str`-to-bytes encoding in `save_to_database` (Iteration-2.py:35-36) is left out: the flow always passes the serialised ciphertext as bytes.
- Key-file handling (`save_keys`, `load_keys`, `create_context_and_keys`, the import-time block; Iteration-2.py:78-125) is file I/O plus library predicates. `load_keys` only logs a missing secret key, and the import-time block overwrites the key file on every start. Neither is a persistence guarantee worth modelling.
- `print_all_user_ids`, `input()`/`print`, logging and the `__main__` wrapper (Iteration-2.py:12-17, 64-76, 165-168, 213-229) are console and logging plumbing. The exception that `decrypt_data` re-raises is the outcome `DecryptionFailed`.
- Flow.EnrollThenVerifySameSample: assumes key continuity between the enrolling and the verifying run (`Flow.SharesKey`). The program never meets it, because every start generates a new key and overwrites the key file (Iteration-2.py:97-101).
- Flow.EnrollThenVerifyApproximate: its hypothesis `DecryptsNear(enrolling, verifying, ...)` assumes the verifying run can decrypt the enrolling run's ciphertext to within half the tolerance. The program never meets this, because every start generates a new key and overwrites the key file (Iteration-2.py:97-101), and each run performs one action (Iteration-2.py:213-229). The lemma states what approximate decryption would give under key continuity, not the program's behaviour.
- The re-prompt recursion in `input_biometric_data` (Iteration-2.py:171) is not modelled. A sample of the wrong length gives `SampleRejected`, and asking again is a new call.
- `.strip()` on the action and the user id (Iteration-2.py:177, 180, 188) is not modelled. Inputs are taken as already stripped.
- `float()` parsing failures (Iteration-2.py:131, 168) and IEEE effects at the 0.05 tolerance or in the percentage are out of scope. Readings are exact reals.
- `threshold` is always the default at the only call site (Iteration-2.py:199), so `Flow.Verify` uses `DefaultThreshold`. `Matcher.CompareFingerprints` takes any real threshold.

=== FILE: flow.dfy ===
/** The enrol and verify branches of `user_interaction_flow` in
    Iteration-2.py, as functions from the store's state and the user's
    inputs to an outcome and the new state. The homomorphic encryption
    library is a pair of functions the model does not look inside. */
module Flow {
  import opened Wrappers
  import opened Preprocess
  import opened Matcher
  import opened Store

  /** Encryption under the process's context. `encrypt` is encryption of a
      normalised vector followed by serialisation; `decrypt` is
      deserialisation, decryption and rounding to two places, answering
      `None` when it raises. */
  datatype Crypto = Crypto(encrypt: seq<real> -> Blob, decrypt: Blob -> Option<seq<real>>)

  /** What one pass through the interaction ends with. */
  datatype Outcome =
    | Enrolled          // the new template was stored
    | SampleRejected    // the sample did not have five readings; it is asked for again
    | NoUserFound       // nothing usable was loaded for the user id
    | Approved
    | Denied
    | DecryptionFailed  // decryption raised; the error leaves the flow
    | Exited
    | InvalidResponse

  datatype Step = Step(outcome: Outcome, db: Database)

  /** Python truthiness of the loaded value: `None` and empty bytes are false. */
  predicate Truthy(loaded: Option<Blob>) {
    loaded.Some? && |loaded.value| > 0
  }

  /** The template stored for a sample: normalise, then encrypt. */
  function Template(crypto: Crypto, sample: seq<real>): (template: Blob) {
    crypto.encrypt(Normalize(sample))
  }

  /** Enrolment ("1"): once the sample passes the gate, exactly one record is
      written, keyed by the entered id, holding the compressed template;
      nothing else in the store changes. */
  function Enroll(db: Database, codec: Codec, crypto: Crypto, user: UserId, sample: seq<real>): (step: Step)
    ensures !IsValidSample(sample) ==> step == Step(SampleRejected, db)
    ensures IsValidSample(sample) ==> step.outcome == Enrolled
    ensures IsValidSample(sample) ==> step.db.Keys == db.Keys + {user}
    ensures IsValidSample(sample) ==> step.db[user] == codec.compress(Template(crypto, sample))
    ensures forall other :: other in db && other != user ==> step.db[other] == db[other]
  {
    if !IsValidSample(sample) then Step(SampleRejected, db)
    else Step(Enrolled, Save(db, codec, user, Template(crypto, sample)))
  }

  /** Verification ("2"): load the stored template; only when it is present
      and non-empty is a sample taken, both templates decrypted and the
      matcher asked, at the default threshold. */
  function Verify(db: Database, codec: Codec, crypto: Crypto, user: UserId, sample: seq<real>): (outcome: Outcome)
    ensures !Truthy(Load(db, codec, user)) <==> outcome == NoUserFound
    ensures outcome == SampleRejected <==> Truthy(Load(db, codec, user)) && !IsValidSample(sample)
    ensures outcome == DecryptionFailed <==>
      && Truthy(Load(db, codec, user))
      && IsValidSample(sample)
      && (crypto.decrypt(Load(db, codec, user).value).None? || crypto.decrypt(Template(crypto, sample)).None?)
    ensures Truthy(Load(db, codec, user)) && IsValidSample(sample)
            && crypto.decrypt(Load(db, codec, user).value).Some?
            && crypto.decrypt(Template(crypto, sample)).Some?
        ==> outcome == Approved || outcome == Denied
    ensures outcome == Approved || outcome == Denied ==>
      && Truthy(Load(db, codec, user))
      && IsValidSample(sample)
      && crypto.decrypt(Load(db, codec, user).value).Some?
      && crypto.decrypt(Template(crypto, sample)).Some?
      && (outcome == Approved <==>
            CompareFingerprints(crypto.decrypt(Load(db, codec, user).value).value,
                                crypto.decrypt(Template(crypto, sample)).value,
                                DefaultThreshold))
  {
    var loaded := Load(db, codec, user);
    if !Truthy(loaded) then NoUserFound
    else if !IsValidSample(sample) then SampleRejected
    else
      var current := crypto.decrypt(Template(crypto, sample));
      var stored := crypto.decrypt(loaded.value);
      if current.None? || stored.None? then DecryptionFailed
      else if CompareFingerprints(stored.value, current.value, DefaultThreshold) then Approved
      else Denied
  }

  /** One pass of the menu: "1" enrols, "2" verifies, "3" exits, anything
      else is an invalid response. The store changes only on enrolment. */
  function Interact(db: Database, codec: Codec, crypto: Crypto, action: string, user: UserId, sample: seq<real>): (step: Step)
    ensures step.db != db ==> action == "1"
    ensures action == "1" ==> step == Enroll(db, codec, crypto, user, sample)
    ensures action == "2" ==> step.outcome == Verify(db, codec, crypto, user, sample)
    ensures action == "3" ==> step.outcome == Exited
    ensures action !in {"1", "2", "3"} ==> step.outcome == InvalidResponse
  {
    if action == "1" then Enroll(db, codec, crypto, user, sample)
    else if action == "2" then Step(Verify(db, codec, crypto, user, sample), db)
    else if action == "3" then Step(Exited, db)
    else Step(InvalidResponse, db)
  }

  /** Key continuity between two runs: the later run's context decrypts a
      template the earlier run encrypted exactly as it decrypts one of its own. */
  ghost predicate SharesKey(earlier: Crypto, later: Crypto) {
    forall v: seq<real> :: later.decrypt(earlier.encrypt(v)) == later.decrypt(later.encrypt(v))
  }

  /** A user who never enrolled is reported as not found, whatever the sample. */
  lemma UnenrolledNotFound(db: Database, codec: Codec, crypto: Crypto, user: UserId, sample: seq<real>)
    requires user !in db
    ensures Verify(db, codec, crypto, user, sample) == NoUserFound
  {
  }

  /** A stored record that fails to decompress is reported exactly as a
      missing user, not as a denial. */
  lemma CorruptRecordNotFound(db: Database, codec: Codec, crypto: Crypto, user: UserId, sample: seq<real>)
    requires user in db
    requires codec.decompress(db[user]).None?
    ensures Verify(db, codec, crypto, user, sample) == NoUserFound
    ensures Verify(db, codec, crypto, user, sample) == Verify(db - {user}, codec, crypto, user, sample)
  {
  }

  /** Enrolment makes the new template loadable under the entered id. */
  lemma EnrollThenLoad(db: Database, codec: Codec, crypto: Crypto, user: UserId, sample: seq<real>)
    requires RoundTrips(codec)
    requires IsValidSample(sample)
    ensures Load(Enroll(db, codec, crypto, user, sample).db, codec, user) == Some(Template(crypto, sample))
  {
    LoadAfterSave(db, codec, user, Template(crypto, sample));
  }

  /** Enrolling in one run and verifying with the same sample in a later run
      approves, provided the later run's context shares the enrolling run's
      key, the template is non-empty and it decrypts to a non-empty vector. */
  lemma EnrollThenVerifySameSample(db: Database, codec: Codec, enrolling: Crypto, verifying: Crypto,
                                   user: UserId, sample: seq<real>)
    requires RoundTrips(codec)
    requires SharesKey(enrolling, verifying)
    requires IsValidSample(sample)
    requires |Template(enrolling, sample)| > 0
    requires verifying.decrypt(Template(verifying, sample)).Some?
    requires |verifying.decrypt(Template(verifying, sample)).value| > 0
    ensures Verify(Enroll(db, codec, enrolling, user, sample).db, codec, verifying, user, sample) == Approved
  {
    EnrollThenLoad(db, codec, enrolling, user, sample);
    assert verifying.decrypt(Template(enrolling, sample)) == verifying.decrypt(Template(verifying, sample));
    IdenticalAccepted(verifying.decrypt(Template(verifying, sample)).value, DefaultThreshold);
  }

  /** Decryption in the `later` run of a vector the `earlier` run encrypted
      gives back a vector of the same length whose every element is within
      half the matching tolerance of the original. */
  ghost predicate DecryptsNear(earlier: Crypto, later: Crypto, v: seq<real>) {
    && later.decrypt(earlier.encrypt(v)).Some?
    && |later.decrypt(earlier.encrypt(v)).value| == |v|
    && forall i :: 0 <= i < |v| ==> Abs(later.decrypt(earlier.encrypt(v)).value[i] - v[i]) <= Tolerance / 2.0
  }

  /** The same sample verifies when both decryptions are only approximate:
      if the verifying run decrypts the stored template and its own fresh one
      each to within half the tolerance of the normalised sample, the two
      decrypted vectors agree at every position and the sample is approved. */
  lemma EnrollThenVerifyApproximate(db: Database, codec: Codec, enrolling: Crypto, verifying: Crypto,
                                    user: UserId, sample: seq<real>)
    requires RoundTrips(codec)
    requires IsValidSample(sample)
    requires |Template(enrolling, sample)| > 0
    requires DecryptsNear(enrolling, verifying, Normalize(sample))
    requires DecryptsNear(verifying, verifying, Normalize(sample))
    ensures Verify(Enroll(db, codec, enrolling, user, sample).db, codec, verifying, user, sample) == Approved
  {
    EnrollThenLoad(db, codec, enrolling, user, sample);
    var v := Normalize(sample);
    var stored := verifying.decrypt(Template(enrolling, sample)).value;
    var current := verifying.decrypt(Template(verifying, sample)).value;
    forall i | 0 <= i < 5
      ensures Close(stored[i], current[i])
    {
      assert Abs(stored[i] - v[i]) <= Tolerance / 2.0;
      assert Abs(current[i] - v[i]) <= Tolerance / 2.0;
    }
    FiveReadingsDefault(stored, current);
  }

  /** A codec that stores blobs unchanged; it round-trips. */
  function IdentityCodec(): (codec: Codec) {
    Codec((b: Blob) => b, (b: Blob) => Some(b))
  }

  /** The run that enrols: its templates are the single byte 1. */
  function EnrollingRun(): (crypto: Crypto) {
    Crypto((v: seq<real>) => [1 as bv8], (b: Blob) => Some([0.5, 0.5, 0.5, 0.5, 0.5]))
  }

  /** A later run under a fresh key: its templates are the single byte 2; it
      decrypts those to the normalised sample and anything else to noise. */
  function VerifyingRun(): (crypto: Crypto) {
    Crypto((v: seq<real>) => [2 as bv8],
           (b: Blob) => if b == [2 as bv8] then Some([0.5, 0.5, 0.5, 0.5, 0.5])
                        else Some([0.9, 0.9, 0.9, 0.9, 0.9]))
  }

  /** Without key continuity the same sample can be denied: here the
      verifying run's context decrypts its own template to the normalised
      sample and the enrolling run's template to something else. */
  lemma KeyChangeDenies()
    ensures RoundTrips(IdentityCodec())
    ensures !SharesKey(EnrollingRun(), VerifyingRun())
    ensures Verify(Enroll(map[], IdentityCodec(), EnrollingRun(), "alice", [50.0, 50.0, 50.0, 50.0, 50.0]).db,
                   IdentityCodec(), VerifyingRun(), "alice", [50.0, 50.0, 50.0, 50.0, 50.0]) == Denied
  {
    var codec, enrolling, verifying := IdentityCodec(), EnrollingRun(), VerifyingRun();
    assert verifying.decrypt(enrolling.encrypt([])) != verifying.decrypt(verifying.encrypt([]));
    var db := Enroll(map[], codec, enrolling, "alice", [50.0, 50.0, 50.0, 50.0, 50.0]).db;
    assert Load(db, codec, "alice") == Some([1 as bv8]);
    assert Normalize([50.0, 50.0, 50.0, 50.0, 50.0]) == [0.5, 0.5, 0.5, 0.5, 0.5];
    assert !Close(0.9, 0.5);
    FiveReadingsDefault([0.9, 0.9, 0.9, 0.9, 0.9], [0.5, 0.5, 0.5, 0.5, 0.5]);
  }

  /** Re-enrolment is last-write-wins: enrolling a user twice, in any runs,
      decides every later verification as enrolling once with the second
      sample does. */
  lemma ReenrollLastWins(db: Database, codec: Codec, firstRun: Crypto, secondRun: Crypto, verifying: Crypto,
                         user: UserId, first: seq<real>, second: seq<real>, probe: seq<real>)
    requires IsValidSample(second)
    ensures Enroll(Enroll(db, codec, firstRun, user, first).db, codec, secondRun, user, second).db
         == Enroll(db, codec, secondRun, user, second).db
    ensures Verify(Enroll(Enroll(db, codec, firstRun, user, first).db, codec, secondRun, user, second).db,
                   codec, verifying, user, probe)
         == Verify(Enroll(db, codec, secondRun, user, second).db, codec, verifying, user, probe)
  {
    if IsValidSample(first) {
      SaveTwiceKeepsLast(db, codec, user, Template(firstRun, first), Template(secondRun, second));
    }
  }

  /** Enrolling one user does not change how any other user is verified. */
  lemma EnrollLeavesOthers(db: Database, codec: Codec, enrolling: Crypto, verifying: Crypto, user: UserId,
                           sample: seq<real>, other: UserId, probe: seq<real>)
    requires other != user
    ensures Verify(Enroll(db, codec, enrolling, user, sample).db, codec, verifying, other, probe)
         == Verify(db, codec, verifying, other, probe)
  {
    if IsValidSample(sample) {
      SaveLeavesOthers(db, codec, user, Template(enrolling, sample), other);
    }
  }

  /** A sample of the wrong length never reaches the store or the matcher:
      whatever the action, the store is unchanged and no decision is made. */
  lemma WrongLengthDecidesNothing(db: Database, codec: Codec, crypto: Crypto, action: string,
                                  user: UserId, sample: seq<real>)
    requires !IsValidSample(sample)
    ensures Interact(db, codec, crypto, action, user, sample).db == db
    ensures Interact(db, codec, crypto, action, user, sample).outcome !in {Approved, Denied, Enrolled}
  {
  }
}

=== FILE: matcher.dfy ===
/** The matching policy of Iteration-2.py (`compare_fingerprints`): count the
    positions that `zip` pairs up and whose readings agree within an absolute
    tolerance, turn that count into a percentage of the STORED template's
    length, and accept when the percentage reaches the threshold.
    Readings are exact reals here; the source works on IEEE doubles. */
module Matcher {

  /** Absolute tolerance under which two readings count as matching. */
  const Tolerance: real := 0.05

  /** Threshold used when the caller gives none. */
  const DefaultThreshold: real := 95.0

  function Abs(x: real): (magnitude: real) {
    if x < 0.0 then -x else x
  }

  /** Two readings agree when they differ by at most `Tolerance`. */
  predicate Close(x: real, y: real) {
    Abs(x - y) <= Tolerance
  }

  /** Number of pairs `zip` forms: the shorter of the two lengths. */
  function Paired(stored: seq<real>, current: seq<real>): (pairs: nat) {
    if |stored| <= |current| then |stored| else |current|
  }

  /** Positions below `k` (all paired) whose readings agree. */
  ghost function MatchedBelow(stored: seq<real>, current: seq<real>, k: nat): (positions: set<int>)
    requires k <= Paired(stored, current)
  {
    set i | 0 <= i < k && Close(stored[i], current[i])
  }

  /** Reference definition of a match: every position `zip` pairs whose
      readings agree within tolerance. */
  ghost function MatchedPositions(stored: seq<real>, current: seq<real>): (positions: set<int>) {
    MatchedBelow(stored, current, Paired(stored, current))
  }

  /** Running count of agreeing pairs among the first `k` pairs, as the
      generator summed in the source accumulates it. */
  function CountUpTo(stored: seq<real>, current: seq<real>, k: nat): (n: nat)
    requires k <= Paired(stored, current)
    ensures n <= k
  {
    if k == 0 then 0
    else CountUpTo(stored, current, k - 1) + (if Close(stored[k - 1], current[k - 1]) then 1 else 0)
  }

  lemma {:induction false} CountUpToIsCardinality(stored: seq<real>, current: seq<real>, k: nat)
    requires k <= Paired(stored, current)
    ensures CountUpTo(stored, current, k) == |MatchedBelow(stored, current, k)|
  {
    if k > 0 {
      CountUpToIsCardinality(stored, current, k - 1);
      var below := MatchedBelow(stored, current, k - 1);
      assert k - 1 !in below;
      if Close(stored[k - 1], current[k - 1]) {
        assert MatchedBelow(stored, current, k) == below + {k - 1};
      } else {
        assert MatchedBelow(stored, current, k) == below;
      }
    }
  }

  /** `matched` in the source: how many paired positions agree. */
  function MatchCount(stored: seq<real>, current: seq<real>): (matched: nat)
    ensures matched == |MatchedPositions(stored, current)|
    ensures matched <= |stored| && matched <= |current|
  {
    CountUpToIsCardinality(stored, current, Paired(stored, current));
    CountUpTo(stored, current, Paired(stored, current))
  }

  /** A share of a positive whole lies between nothing and all of it. */
  lemma RatioBounds(part: real, whole: real)
    requires 0.0 <= part <= whole
    requires whole > 0.0
    ensures 0.0 <= part / whole <= 1.0
    ensures (part / whole) * whole == part
  {
    var ratio := part / whole;
    assert ratio * whole == part;
    assert (1.0 - ratio) * whole == whole - part;
  }

  /** The similarity percentage: agreeing pairs over the stored length. */
  function Similarity(stored: seq<real>, current: seq<real>): (percent: real)
    requires |stored| > 0
    ensures 0.0 <= percent <= 100.0
    ensures percent * (|stored| as real) == (|MatchedPositions(stored, current)| as real) * 100.0
  {
    var matched := MatchCount(stored, current) as real;
    var total := |stored| as real;
    RatioBounds(matched, total);
    (matched / total) * 100.0
  }

  /** The verification decision. It fails closed on an empty side; otherwise
      it accepts exactly when the agreeing pairs make up at least `threshold`
      percent of the stored template. */
  function CompareFingerprints(stored: seq<real>, current: seq<real>, threshold: real): (accept: bool)
    ensures |stored| == 0 || |current| == 0 ==> !accept
    ensures |stored| > 0 && |current| > 0 ==>
      (accept <==> (|MatchedPositions(stored, current)| as real) * 100.0 >= threshold * (|stored| as real))
  {
    if |stored| == 0 || |current| == 0 then false
    else Similarity(stored, current) >= threshold
  }

  /** Raising the threshold never turns a rejection into an acceptance. */
  lemma ThresholdMonotone(stored: seq<real>, current: seq<real>, lower: real, higher: real)
    requires lower <= higher
    ensures CompareFingerprints(stored, current, higher) ==> CompareFingerprints(stored, current, lower)
  {
  }

  /** The count over the first `k` pairs depends only on the first `k`
      readings of `current`. */
  lemma {:induction false} CountUpToPrefix(stored: seq<real>, current: seq<real>, other: seq<real>, k: nat)
    requires k <= Paired(stored, current) && k <= Paired(stored, other)
    requires forall i :: 0 <= i < k ==> current[i] == other[i]
    ensures CountUpTo(stored, current, k) == CountUpTo(stored, other, k)
  {
    if k > 0 {
      CountUpToPrefix(stored, current, other, k - 1);
    }
  }

  /** Readings of `current` beyond the stored length never affect the
      decision: `zip` drops them. */
  lemma ExtraCurrentIgnored(stored: seq<real>, current: seq<real>, threshold: real)
    requires |current| >= |stored|
    ensures CompareFingerprints(stored, current, threshold)
        == CompareFingerprints(stored, current[..|stored|], threshold)
  {
    var cut := current[..|stored|];
    CountUpToPrefix(stored, current, cut, |stored|);
    assert MatchCount(stored, current) == MatchCount(stored, cut);
  }

  /** A current sample shorter than the stored one is still scored against
      the stored length: the missing positions count as disagreements, so
      acceptance needs a threshold no larger than the share it covers. */
  lemma ShortCurrentBound(stored: seq<real>, current: seq<real>, threshold: real)
    requires |current| < |stored|
    requires CompareFingerprints(stored, current, threshold)
    ensures threshold * (|stored| as real) <= (|current| as real) * 100.0
  {
    var matched := MatchCount(stored, current);
    assert (matched as real) * 100.0 <= (|current| as real) * 100.0;
  }

  /** Counting over more pairs never gives fewer agreements. */
  lemma {:induction false} CountUpToMonotone(stored: seq<real>, current: seq<real>, k: nat, l: nat)
    requires k <= l <= Paired(stored, current)
    ensures CountUpTo(stored, current, k) <= CountUpTo(stored, current, l)
  {
    if k < l {
      CountUpToMonotone(stored, current, k, l - 1);
    }
  }

  /** Truncating the current sample gains nothing: if a prefix of it is
      accepted, the whole of it is accepted too. */
  lemma TruncationGainsNothing(stored: seq<real>, current: seq<real>, m: nat, threshold: real)
    requires m <= |current|
    ensures CompareFingerprints(stored, current[..m], threshold) ==> CompareFingerprints(stored, current, threshold)
  {
    var cut := current[..m];
    var k := Paired(stored, cut);
    CountUpToPrefix(stored, cut, current, k);
    CountUpToMonotone(stored, current, k, Paired(stored, current));
    assert MatchCount(stored, cut) <= MatchCount(stored, current);
  }

  /** A sequence agrees with itself at every position. */
  lemma {:induction false} CountUpToSelf(readings: seq<real>, k: nat)
    requires k <= |readings|
    ensures CountUpTo(readings, readings, k) == k
  {
    if k > 0 {
      CountUpToSelf(readings, k - 1);
    }
  }

  /** Two identical non-empty templates are accepted at any threshold up to
      one hundred percent. */
  lemma IdenticalAccepted(readings: seq<real>, threshold: real)
    requires |readings| > 0
    requires threshold <= 100.0
    ensures CompareFingerprints(readings, readings, threshold)
  {
    CountUpToSelf(readings, |readings|);
    assert MatchCount(readings, readings) == |readings|;
  }

  /** The count reaches the number of pairs considered exactly when every one
      of those pairs agrees. */
  lemma {:induction false} FullCountIffAllClose(stored: seq<real>, current: seq<real>, k: nat)
    requires k <= Paired(stored, current)
    ensures CountUpTo(stored, current, k) == k
        <==> forall i :: 0 <= i < k ==> Close(stored[i], current[i])
  {
    if k > 0 {
      FullCountIffAllClose(stored, current, k - 1);
    }
  }

  /** The count over `k` pairs of which exactly one, `j`, disagrees. */
  lemma {:induction false} OneMismatchCount(stored: seq<real>, current: seq<real>, k: nat, j: nat)
    requires k <= Paired(stored, current)
    requires j < k
    requires !Close(stored[j], current[j])
    requires forall i :: 0 <= i < k && i != j ==> Close(stored[i], current[i])
    ensures CountUpTo(stored, current, k) == k - 1
  {
    if k - 1 == j {
      FullCountIffAllClose(stored, current, k - 1);
    } else {
      OneMismatchCount(stored, current, k - 1, j);
    }
  }

  /** For two five-reading templates and the default threshold, the decision
      is "every reading agrees": 95% of five positions needs all five. */
  lemma FiveReadingsDefault(stored: seq<real>, current: seq<real>)
    requires |stored| == 5 && |current| == 5
    ensures CompareFingerprints(stored, current, DefaultThreshold)
        <==> forall i :: 0 <= i < 5 ==> Close(stored[i], current[i])
  {
    FullCountIffAllClose(stored, current, 5);
  }

  /** One reading out of five off by more than the tolerance gives a
      similarity of 80% and a rejection at the default threshold. */
  lemma SingleOutlierRejected(stored: seq<real>, current: seq<real>, j: nat)
    requires |stored| == 5 && |current| == 5
    requires j < 5
    requires !Close(stored[j], current[j])
    requires forall i :: 0 <= i < 5 && i != j ==> Close(stored[i], current[i])
    ensures Similarity(stored, current) == 80.0
    ensures !CompareFingerprints(stored, current, DefaultThreshold)
  {
    OneMismatchCount(stored, current, 5, j);
  }

  /** The boundary around the tolerance on concrete readings: a single
      reading off by 0.06 rejects, one off by 0.04 still accepts. */
  lemma ToleranceBoundaryExample()
    ensures !CompareFingerprints([0.5, 0.5, 0.5, 0.5, 0.5], [0.5, 0.5, 0.56, 0.5, 0.5], DefaultThreshold)
    ensures CompareFingerprints([0.5, 0.5, 0.5, 0.5, 0.5], [0.5, 0.5, 0.54, 0.5, 0.5], DefaultThreshold)
  {
    var stored := [0.5, 0.5, 0.5, 0.5, 0.5];
    SingleOutlierRejected(stored, [0.5, 0.5, 0.56, 0.5, 0.5], 2);
    FiveReadingsDefault(stored, [0.5, 0.5, 0.54, 0.5, 0.5]);
  }
}

=== FILE: preprocess.dfy ===
/** The template codec's plaintext side: the shape gate applied to a parsed
    biometric sample and the fixed min-max normalisation applied before
    encryption (Iteration-2.py, `input_biometric_data` and
    `preprocess_biometric_data`). */
module Preprocess {

  /** Number of readings a biometric sample must have. */
  const SampleLength: nat := 5

  /** Fixed normalisation bounds. */
  const MinValue: real := 0.0
  const MaxValue: real := 100.0

  /** The input gate: a parsed sample is accepted only with exactly
      `SampleLength` readings; any other length is asked for again. */
  predicate IsValidSample(data: seq<real>) {
    |data| == SampleLength
  }

  /** Min-max scaling of every reading with the fixed bounds. No length check
      is made here: the gate lives with the input, not with the normaliser. */
  function Normalize(data: seq<real>): (normalized: seq<real>)
    ensures |normalized| == |data|
    ensures forall i :: 0 <= i < |data| ==> normalized[i] * 100.0 == data[i]
    ensures forall i :: 0 <= i < |data| ==>
      (0.0 <= data[i] <= 100.0 <==> 0.0 <= normalized[i] <= 1.0)
    ensures forall i, j :: 0 <= i < |data| && 0 <= j < |data| ==>
      (data[i] <= data[j] <==> normalized[i] <= normalized[j])
  {
    seq(|data|, i requires 0 <= i < |data| => (data[i] - MinValue) / (MaxValue - MinValue))
  }

  /** Inverse of the scaling: maps a normalised vector back to readings. */
  function Denormalize(normalized: seq<real>): (data: seq<real>)
    ensures |data| == |normalized|
  {
    seq(|normalized|, i requires 0 <= i < |normalized| => normalized[i] * (MaxValue - MinValue) + MinValue)
  }

  /** Normalisation loses nothing: scaling back recovers the sample. */
  lemma DenormalizeNormalize(data: seq<real>)
    ensures Denormalize(Normalize(data)) == data
  {
  }

  /** ... and every normalised vector is the image of some sample. */
  lemma NormalizeDenormalize(normalized: seq<real>)
    ensures Normalize(Denormalize(normalized)) == normalized
  {
  }

  /** Normalisation keeps the gate's verdict: a sample is the right shape
      exactly when its normalised vector is. */
  lemma NormalizePreservesShape(data: seq<real>)
    ensures IsValidSample(Normalize(data)) <==> IsValidSample(data)
  {
  }
}

=== FILE: store.dfy ===
/** The template store of Iteration-2.py (`save_to_database`,
    `load_from_database`): a table with `user_id` as primary key holding one
    compressed blob per user. The table is an immutable map; the compression
    codec is a pair of functions the model does not look inside. */
module Store {
  import opened Wrappers

  type Blob = seq<bv8>
  type UserId = string

  /** The `fingerprints` table: user id to compressed template. */
  type Database = map<UserId, Blob>

  /** The compression codec. `decompress` answers `None` when it raises,
      whether with a codec error or any other exception. */
  datatype Codec = Codec(compress: Blob -> Blob, decompress: Blob -> Option<Blob>)

  /** The codec's one promise: decompressing a compressed blob gives it back. */
  ghost predicate RoundTrips(codec: Codec) {
    forall b: Blob :: codec.decompress(codec.compress(b)) == Some(b)
  }

  /** Upsert of the compressed template under `user` (`REPLACE INTO` on a
      primary key): the row for `user` is created or overwritten and every
      other row is kept. */
  function Save(db: Database, codec: Codec, user: UserId, template: Blob): (db': Database)
    ensures db'.Keys == db.Keys + {user}
    ensures db'[user] == codec.compress(template)
    ensures forall other :: other in db && other != user ==> db'[other] == db[other]
  {
    db[user := codec.compress(template)]
  }

  /** Fetch and decompress the row for `user`. A missing row and a row that
      fails to decompress both answer `None`. */
  function Load(db: Database, codec: Codec, user: UserId): (loaded: Option<Blob>)
    ensures loaded.None? <==> user !in db || codec.decompress(db[user]).None?
    ensures loaded.Some? ==> codec.decompress(db[user]) == loaded
  {
    if user in db then codec.decompress(db[user]) else None
  }

  /** What was saved is what is loaded, given a round-tripping codec. */
  lemma LoadAfterSave(db: Database, codec: Codec, user: UserId, template: Blob)
    requires RoundTrips(codec)
    ensures Load(Save(db, codec, user, template), codec, user) == Some(template)
  {
  }

  /** Saving one user leaves what every other user loads unchanged. */
  lemma SaveLeavesOthers(db: Database, codec: Codec, user: UserId, template: Blob, other: UserId)
    requires other != user
    ensures Load(Save(db, codec, user, template), codec, other) == Load(db, codec, other)
  {
  }

  /** Saving the same user twice keeps only the last template. */
  lemma SaveTwiceKeepsLast(db: Database, codec: Codec, user: UserId, first: Blob, second: Blob)
    ensures Save(Save(db, codec, user, first), codec, user, second) == Save(db, codec, user, second)
  {
  }

  /** A row that does not decompress loads exactly like a missing row: the
      caller cannot tell corruption from absence. */
  lemma CorruptLikeAbsent(db: Database, codec: Codec, user: UserId, garbage: Blob)
    requires codec.decompress(garbage).None?
    ensures Load(db[user := garbage], codec, user) == Load(db - {user}, codec, user)
    ensures Load(db - {user}, codec, user) == None
  {
  }
}

=== FILE: wrappers.dfy ===
/** Optional values, used for the store's "row or nothing" answers and for
    decompression and decryption that may fail. */
module Wrappers {

  /** `None` stands for Python's `None` (and for a caught exception). */
  datatype Option<+T> = None | Some(value: T)
}
